=== FILE: README.md ===
# simplebench Suite, modelled in Dafny

This project models the benchmark harness of simplebench (`Suite.js`). A
suite is built from a set of options and filled with named test bodies. When
it runs, each body goes through a timed loop one test at a time. The loop
counts completions until the time budget is spent. It can yield to the
scheduler every so often ("bounce"). When every test has finished, the
name-to-count object is ranked: the suite picks a winner, computes each
test's percentage diff against it and its operations per second, and sorts
the entries by descending count.

Modules, leaves first:

- `JsValues` (`js_values.dfy`): the JavaScript values the options can hold,
  with ToBoolean, ToNumber and the `x % d === 0` test.
- `Config` (`config.dfy`): the constructor's defaulting of `duration`,
  `bounceEvery` and `bounce`.
- `Registry` (`registry.dfy`): `self.tests`, a name-to-body map that keeps its
  keys in creation order, and `add`.
- `Runner` (`runner.dfy`): `_runTest` as a `while` loop over a clock trace.
  The trace holds the start reading and, for each invocation, the reading
  `runCb` takes plus the error the body signalled, if any. A bounce is
  recorded as a decision. A trace that ends inside the budget stands for a
  body that stops signalling, so the runner never calls back.
- `Results`, `Ordering`, `Statistics` (`results.dfy`, `ordering.dfy`,
  `statistics.dfy`): the result shapes, the ordering of the result list, and
  the winner/diff/opsSec computation.
- `Harness` (`suite.dfy`): the suite value, `async.mapValuesSeries`, which runs
  tests in order and stops at the first error, and `run`.

Time is in integer microseconds, as `microtime.now` returns it. Counts are
natural numbers. `diff` and `opsSec` are exact reals.

`Suite.js` has no test groups and no `skip`, and it never reads `compare`.
The winner and the diffs are always computed, and `compare` is passed through
the options unchanged.

`run` is modelled with both corrections from "## Findings" applied: the timed
loop reports an error a body passes to its completion callback, and the
results are sorted by descending count. As written, the program never aborts
a run, because no error can reach Suite.js:28 or Suite.js:36. The as-written
loop and sort are modelled separately, next to the corrected ones.

## Model

| member | source | states |
|---|---|---|
| `JsValues.ToNumber` | Suite.js:89-94 | An option value is truthy exactly when it converts to a non-zero number. So a defaulted `duration` or `bounceEvery` is never 0, NaN, null or false. |
| `JsValues.RemainderIsZeroAtDefaultPeriod` | Suite.js:94 | With the default period of 1000, the JavaScript test `count % bounceEvery === 0` is exactly integer divisibility by 1000. |
| `Config.Resolve` | Suite.js:9-12 | A missing argument object counts as `{}`. A truthy `duration` or `bounceEvery` is kept, and a falsy one becomes 1,000,000 µs or 1000. `bounce` is kept unless it is undefined, in which case it becomes `false`. `compare` is untouched. The result always meets the runner's needs. |
| `Config.ResolveIsIdempotent` | Suite.js:9-12 | Applying the defaults to already-defaulted options changes nothing. |
| `Config.ResolvedOptionsAreKept` | Suite.js:9-12 | Options that already have a truthy `duration` and `bounceEvery` and a defined `bounce` are a fixed point of the defaulting. |
| `Config.NoArgumentsGiveDefaults` | Suite.js:9-12 | With no arguments, a suite runs each test for one second and does not bounce. |
| `Config.FalsyValuesSelectDefaults` | Suite.js:10-12 | 0, NaN, null and false each select the default duration and the default period. A falsy `bounce` other than undefined (null, NaN, false) is kept. |
| `Registry.Add` | Suite.js:17-21 | After `add(name, fn)`, `name` maps to `fn` whatever it mapped to before. Every other name keeps its body or stays absent. A new name is appended to the iteration order and a known name keeps its place. Names stay unique. |
| `Registry.AddOverwrites` | Suite.js:20 | Adding the same name twice is the same as adding only the second body. |
| `Registry.AddDifferentNamesCommute` | Suite.js:20 | Adds under different names commute on the bodies. Only the iteration order records which came first. |
| `Runner.RunTest` | Suite.js:81-107 | The loop's outcome equals the reference outcome `Measure`. Every counted completion is within budget and error-free. The first completion not counted is past the deadline or carries an error, and the body is not invoked again after it. The count equals the number of continuations issued. A continuation is a bounce exactly when `bounce === true` and the just-incremented count is a multiple of `bounceEvery`. With `bounce` not `true`, every continuation is direct. |
| `Runner.MeasureStopsAtFirstStop` | Suite.js:87-99 | The outcome is fixed by the first completion that does not continue. If it carries an error, that error is reported. If it is past the deadline, the count of completions before it is reported. If no completion stops the loop, the run stalls after all of them. |
| `Runner.CountSplitsMonotoneTrace` | Suite.js:85-93 | With a clock that never runs backwards and no errors, the returned count splits the trace. Readings before it satisfy `now - start <= duration`, and readings from it on do not. |
| `Runner.BounceEveryThousandByDefault` | Suite.js:94-99 | With `bounce` on and the default period, the loop yields after exactly every 1000th completion. With default options it never yields. |
| `Runner.MeasureAsWritten` | Suite.js:87-91 | The loop as written, where `runCb` ignores its argument, never reports an error. |
| `Runner.AsWrittenIsMeasureOfStripped` | Suite.js:87-99 | For every trace, the as-written loop returns what the corrected loop returns on the same clock readings with every error argument dropped. So a completion that carries an error counts like any other. |
| `Runner.ErrorSignalIsDropped` | Suite.js:87-104 | On the trace in "## Findings" (readings 10, then 20 with the error `boom`, then 2,000,000), the as-written loop reports a count of 2 and the corrected loop reports `boom`. |
| `Runner.AsWrittenAgreesWithoutErrors` | Suite.js:87-99 | For bodies that never signal an error, the as-written and corrected loops agree. |
| `Ordering.SortDescending` | Suite.js:64 | The intended result order. It is descending by count and a permutation of the input. For every count, the entries with that count keep their input order, so the sort is stable. |
| `Ordering.BooleanComparatorIsInconsistent` | Suite.js:64 | For two different counts the comparator answers 1 one way and 0 the other. A consistent comparator must answer with opposite signs. |
| `Ordering.SortAsWrittenKeepsOrder` | Suite.js:64 | Under an engine that moves an element forward only on a negative comparison, the as-written sort returns the list unchanged. |
| `Ordering.SortAsWrittenIsNotDescending` | Suite.js:64 | For two tests where the second ran more often, the as-written order keeps the slower test first. The intended order puts the faster test first. |
| `Statistics.PickWinner` | Suite.js:38-49 | `winnerCount` is at least every count. `winner` is undefined exactly when no count is positive, and then `winnerCount` is 0. Otherwise `winner` names the first test in iteration order holding the greatest count, so ties go to the earliest name. |
| `Statistics.TieGoesToEarliest` | Suite.js:44-49 | With counts 5, 7, 7 the second test wins with 7. With all counts 0 there is no winner. |
| `Statistics.WinnerCountIsMaxCount` | Suite.js:44-49 | The scan's `winnerCount` equals an independently defined maximum of the counts, which is 0 for no tests. |
| `Statistics.DiffOf` | Suite.js:53 | `diff` is undefined exactly for the winner's name. When the winning count is positive, every other diff is a percentage p in [-100, 0] with `p * winnerCount == (count - winnerCount) * 100`. When the winning count is 0 (`0 / 0`), every other diff is NaN. |
| `Statistics.OpsPerSecond` | Suite.js:60 | `opsSec * duration == count * 1e6`. `opsSec` is non-negative for a positive duration. |
| `Statistics.Rank` | Suite.js:35-67 | With the intended sort `SortDescending` from "## Findings", the ranking has one entry per measured test and is ordered by descending count. |
| `Statistics.RankEntriesAreTests` | Suite.js:51-62 | Every result entry carries some test's name and count unchanged. |
| `Statistics.RankHasEveryTest` | Suite.js:51-62 | Every test has a result entry with its name and count. |
| `Statistics.RankKeepsTieOrder` | Suite.js:64 | For every count, the entries with that count appear in the order the second loop produced them. |
| `Statistics.RankDiffs` | Suite.js:51-62 | In the ranking, `diff` is undefined exactly on entries bearing the winner's name, and the winner's entry is present whenever there is a winner. Every entry's count is at most `winnerCount`, and its diff is `DiffOf` against the winning count. With no positive count, every diff is NaN. |
| `Statistics.RankOpsPerSecond` | Suite.js:60 | Every entry's `opsSec` is its count scaled to one second by the suite's duration. |
| `Harness.New` | Suite.js:6-15 | A new suite has defaulted options and no tests. |
| `Harness.FirstUnfinished` | Suite.js:26-28 | Finds the first test in run order that did not complete. Every test before it completed. |
| `Harness.Add` | Suite.js:17-21 | `suite.add(name, fn)` leaves the options alone and registers the body as `Registry.Add` does: `name` now runs `fn`, and every other name keeps its body. |
| `Harness.RunSeries` | Suite.js:26-36 | With the corrected timed loop's outcomes: if every test completes, the series yields one (name, count) pair per test, in run order. If a test fails first, the series yields its error and no results. If a test never finishes first, the series hangs. |
| `Harness.SeriesIgnoresLaterTests` | Suite.js:26-36 | Outcomes after the first unfinished test have no effect on the series: later tests never start. |
| `Harness.Run` | Suite.js:23-67 | `run`, with both corrections from "## Findings" applied, produces a ranking exactly when every registered test completes. The ranking has one entry per test and is ordered by descending count. |
| `Harness.RunRanksMeasuredCounts` | Suite.js:35-62 | A completed run ranks the registered names, in registration order, with the counts their timed loops returned. The names are distinct. |
| `Harness.RunAbortsOnFirstError` | Suite.js:26-36 | With the corrected timed loop: if test k fails and every earlier test completed, `run` ends with test k's error. Replacing the traces of the later tests changes nothing. |
| `Harness.TwoTestsRankFasterFirst` | Suite.js:35-67 | Two tests with counts 2 and 4 under a 100 µs budget. The faster test wins and comes first with no diff. The slower test gets a diff of -50 %. `opsSec` is 40000 and 20000. |

## Left out

- `report` (Suite.js:70-78) and `diffString` with `toFixed` (Suite.js:59) are console output and number formatting.
- The real clock and scheduler are replaced by a per-test trace of clock readings and a recorded bounce decision. This covers `microtime.now`, `setImmediate`, the `async` library, and the 100 ms `setTimeout` between tests, which only moves the clock.
- `diff` and `opsSec` are exact reals, while JavaScript computes them in IEEE-754 doubles.
- Option values are limited to undefined, null, booleans, finite numbers and NaN. The command line declares `duration` and `bounceEvery` as `Number` (bin/_simplebench.js:8-10), so it can also produce +Infinity or -Infinity, from text such as `Infinity` or `1e400`. Infinity, strings and objects, with their ToNumber coercions, are not modelled.
- `for...in` and `async.mapValuesSeries` visit integer-like keys (`"0"`, `"1"`, ...) first, in numeric order, before the other keys in creation order. The model uses creation order for every key.
- Harness.Run: models `run` with both corrections from "## Findings" applied. As written, `run` never aborts, and its result order depends on the engine.
- `duration` and `bounceEvery` are exact reals, not doubles. So `count % bounceEvery === 0` differs for periods that doubles cannot represent exactly: `1 % 0.1` is not 0 in JavaScript, but the model counts it as 0.
- Registry.Add: every string becomes a property. In JavaScript, `self.tests["__proto__"] = fn` calls the prototype setter instead, so that test is never listed by `Object.keys` and never runs.
- The constructor stores the caller's own options object and writes the defaults into it (Suite.js:9-12). The model returns new options, fixed at construction, and assumes nobody writes to the shared object afterwards. The callers shown (testing/index.test.js and bin/_simplebench.js) never do. A later write would be read at Suite.js:60, :89 and :94: a NaN `duration` makes `now - start > duration` always false, so the loop never stops. A `duration` of 0 gives an Infinity `opsSec`. A `bounceEvery` of 0 makes `count % 0` NaN, so the loop never bounces.
- A body that throws synchronously propagates the exception uncaught, and it never reaches `cb`. For the first test up to its first bounce, it propagates out of `run`. Otherwise it propagates out of the `setTimeout` callback (Suite.js:31-33) or the `setImmediate` callback (Suite.js:96) that issued the invocation. The model covers only errors passed to the completion callback.
- bin/_simplebench.js (argument parsing, `global.suite`, `require`, `saveResults`, `process.exit`) is not part of this model. Neither are example.js and examples/example_node.js.
- Test groups, `skip`, `compare` gating and saving results are not present in `Suite.js`.
- Runner.RunTest: requires resolved options. The constructor resolves them, and they stay resolved provided the caller does not write to the shared options object later (see the line above).
- Runner.RunTest: the direct re-invocation at Suite.js:98 and Suite.js:103 (`return run()`, `return fn(runCb)`) is a tail call, by mutual recursion through `runCb`. On engines without tail-call elimination, such as V8 and Node, a body that calls `done` synchronously adds stack frames on every completion. With `bounce` off, a long enough run then ends in an uncaught RangeError, as the comment at testing/index.test.js:55-56 anticipates. The model's `while` loop stands for the intended, stack-free behaviour and cannot show this.
- Runner.Measure: in the corrected runner, an error passed to the completion callback is checked before the clock. The source has no error check in `runCb` to take the order from.
- Statistics.DiffOf: requires a count no larger than the winning count, which always holds in `run`. This excludes `count / 0` with a positive count, which would be Infinity in JavaScript.
- Statistics.RankOpsPerSecond: states that each entry's `opsSec` equals `OpsPerSecond(count, duration)`. The identity `opsSec * duration == count * 1e6` is stated in `OpsPerSecond`'s own contract.

## Findings

| source | as written | input that shows it | evidently intended | confidence | as-written member | corrected member |
|---|---|---|---|---|---|---|
| Suite.js:87-91 | `runCb` takes no parameters, so an error a body passes to `done(err)` is dropped. The completion counts like any other, `_runTest` never calls `cb(err)`, and the check at Suite.js:28 is never reached. | Default options, start 0, completions at 10 µs (no error), 20 µs (error `boom`), then 2,000,000 µs. The as-written loop returns a count of 2. | The error reaches `cb(err)`, and `run` aborts with it. | medium, not executed | `Runner.MeasureAsWritten` | `Runner.RunTest` |
| Suite.js:64 | The comparator `(a, b) => a.count < b.count` returns a boolean, which sort coerces to 1 or 0 and never to a negative number. It is not a consistent comparator, so the order is engine-dependent. An engine that reorders only on negative results (V8's TimSort) leaves the list as it was. | Two results: test1 with count 10, then test2 with count 20. They stay in that order. | A stable sort by descending count, e.g. `(a, b) => b.count - a.count`, putting test2 first. | high for the inconsistency, medium for the engine effect; not executed | `Ordering.BooleanComparator` | `Ordering.SortDescending` |

=== FILE: config.dfy ===
/** The suite constructor's option defaulting (Suite.js, the `Suite` function). */
module Config {
  import opened JsValues

  /** The options the suite reads. `compare` is carried because callers pass
      it, but nothing in the suite defaults it or reads it. */
  datatype Options = Options(duration: JsValue, bounce: JsValue, bounceEvery: JsValue, compare: JsValue)

  /** One second, in microseconds: the budget each test runs for by default. */
  const DefaultDuration: real := 1000000.0

  /** The number of completions between two scheduler round-trips, by default. */
  const DefaultBounceEvery: real := 1000.0

  /** `{}`: every option reads as undefined. */
  const NoOptions := Options(Undefined, Undefined, Undefined, Undefined)

  /** `args || {}`: a missing argument object (undefined or null) is empty. */
  function Given(args: Option<Options>): Options {
    if args.Some? then args.value else NoOptions
  }

  /** What every suite's options satisfy once the constructor has run. */
  predicate Resolved(o: Options) {
    Truthy(o.duration) && Truthy(o.bounceEvery) && o.bounce != Undefined
  }

  /** The constructor's defaulting: `duration` and `bounceEvery` fall back when
      falsy, `bounce` only when undefined, and anything else stays as given. */
  function Resolve(args: Option<Options>): (o: Options)
    ensures Resolved(o)
    ensures Truthy(Given(args).duration) ==> o.duration == Given(args).duration
    ensures !Truthy(Given(args).duration) ==> o.duration == Num(DefaultDuration)
    ensures Truthy(Given(args).bounceEvery) ==> o.bounceEvery == Given(args).bounceEvery
    ensures !Truthy(Given(args).bounceEvery) ==> o.bounceEvery == Num(DefaultBounceEvery)
    ensures Given(args).bounce != Undefined ==> o.bounce == Given(args).bounce
    ensures Given(args).bounce == Undefined ==> o.bounce == Bool(false)
    ensures o.compare == Given(args).compare
  {
    var a := Given(args);
    Options(
      if Truthy(a.duration) then a.duration else Num(DefaultDuration),
      if a.bounce != Undefined then a.bounce else Bool(false),
      if Truthy(a.bounceEvery) then a.bounceEvery else Num(DefaultBounceEvery),
      a.compare)
  }

  /** Already-resolved options are left exactly as they are, so defaulting
      twice is the same as defaulting once. */
  lemma ResolveIsIdempotent(args: Option<Options>)
    ensures Resolve(Some(Resolve(args))) == Resolve(args)
  {
  }

  /** Options that are already resolved are a fixed point of the defaulting. */
  lemma ResolvedOptionsAreKept(o: Options)
    requires Resolved(o)
    ensures Resolve(Some(o)) == o
  {
  }

  /** With no options at all, the suite runs each test for one second,
      never bounces, and would bounce every 1000 completions. */
  lemma NoArgumentsGiveDefaults()
    ensures Resolve(None) == Options(Num(1000000.0), Bool(false), Num(1000.0), Undefined)
    ensures Resolve(Some(NoOptions)) == Resolve(None)
  {
  }

  /** Zero, NaN, null and false all select the default duration and period;
      a falsy `bounce` other than undefined is kept. */
  lemma FalsyValuesSelectDefaults()
    ensures Resolve(Some(Options(Num(0.0), Null, NaN, Undefined))) ==
            Options(Num(DefaultDuration), Null, Num(DefaultBounceEvery), Undefined)
    ensures Resolve(Some(Options(Bool(false), Bool(false), Null, Undefined))) ==
            Options(Num(DefaultDuration), Bool(false), Num(DefaultBounceEvery), Undefined)
    ensures Resolve(Some(Options(Null, NaN, Num(0.0), Undefined))) ==
            Options(Num(DefaultDuration), NaN, Num(DefaultBounceEvery), Undefined)
    ensures Resolve(Some(Options(NaN, Null, Bool(false), Undefined))) ==
            Options(Num(DefaultDuration), Null, Num(DefaultBounceEvery), Undefined)
  {
  }
}

=== FILE: js_values.dfy ===
/** The few JavaScript values and coercions the suite's options go through.

    Option values reach the constructor from a caller's object literal or from
    the command line, where `Number(...)`, `Boolean(...)` and a bare `--flag`
    (which reads as `true`) produce them; a key that is not given reads as
    `undefined`. Numbers are modelled as exact reals, with NaN kept apart.
 */
module JsValues {

  datatype Option<+T> = None | Some(value: T)

  datatype JsValue = Undefined | Null | Bool(b: bool) | Num(n: real) | NaN

  /** ToBoolean, section 7.1.2 of ECMA-262: the "truthy" test behind `x || d`. */
  predicate Truthy(v: JsValue) {
    match v
    case Undefined => false
    case Null => false
    case Bool(b) => b
    case Num(n) => n != 0.0
    case NaN => false
  }

  /** ToNumber, section 7.1.4 of ECMA-262, with None standing for NaN. */
  function ToNumber(v: JsValue): (r: Option<real>)
    ensures Truthy(v) <==> r.Some? && r.value != 0.0
    ensures v.Num? ==> r == Some(v.n)
    ensures v == Bool(true) ==> r == Some(1.0)
  {
    match v
    case Undefined => None
    case Null => Some(0.0)
    case Bool(b) => Some(if b then 1.0 else 0.0)
    case Num(n) => Some(n)
    case NaN => None
  }

  /** `x % d === 0` for a finite non-zero divisor (section 6.1.6.1.6 of
      ECMA-262): the remainder `x - d * q`, with `q` the truncated quotient,
      is zero exactly when the true quotient is an integer. */
  predicate RemainderIsZero(x: int, d: real)
    requires d != 0.0
  {
    var q := x as real / d;
    q.Floor as real == q
  }

  /** With the default period of 1000 the JavaScript test is plain
      divisibility: a bounce falls on every thousandth completion. */
  lemma RemainderIsZeroAtDefaultPeriod(x: int)
    ensures RemainderIsZero(x, 1000.0) <==> x % 1000 == 0
  {
    var q := x as real / 1000.0;
    if q.Floor as real == q {
      var m := q.Floor;
      assert m as real * 1000.0 == x as real;
      assert m * 1000 == x;
    }
    if x % 1000 == 0 {
      var m := x / 1000;
      assert x == m * 1000;
      assert q == m as real;
    }
  }
}

=== FILE: ordering.dfy ===
/** Ordering of the result list (Suite.js `run`, the final sort).

    The source sorts with `(a, b) => a.count < b.count`, a comparator that
    returns a boolean. `Array.prototype.sort` coerces it to 1 or 0, never to a
    negative number, so it is not a consistent comparator in the sense of
    section 23.1.3.30 of ECMA-262 and the resulting order is left to the
    engine. The evident intent, a descending order by count that keeps tests
    with equal counts in their original order, is `SortDescending`.
 */
module Ordering {
  import opened Results

  /** Puts `x` in front of the first entry whose count does not exceed its
      own, so that it precedes the entries with an equal count. */
  function Insert(x: ResultEntry, s: seq<ResultEntry>): (r: seq<ResultEntry>)
    ensures multiset(r) == multiset(s) + multiset{x}
  {
    if s == [] || s[0].count <= x.count then [x] + s
    else
      assert s == [s[0]] + s[1..];
      [s[0]] + Insert(x, s[1..])
  }

  /** A head no smaller than anything after it extends a descending list. */
  lemma ConsKeepsDescending(h: ResultEntry, t: seq<ResultEntry>)
    requires Descending(t)
    requires forall e :: e in multiset(t) ==> e.count <= h.count
    ensures Descending([h] + t)
  {
    forall i, j | 0 <= i < j < |[h] + t|
      ensures ([h] + t)[i].count >= ([h] + t)[j].count
    {
      assert ([h] + t)[j] == t[j - 1];
      assert t[j - 1] in multiset(t);
    }
  }

  lemma {:induction false} InsertKeepsDescending(x: ResultEntry, s: seq<ResultEntry>)
    requires Descending(s)
    ensures Descending(Insert(x, s))
  {
    if s == [] || s[0].count <= x.count {
      forall e: ResultEntry | e in multiset(s)
        ensures e.count <= x.count
      {
        var i :| 0 <= i < |s| && s[i] == e;
        assert s[0].count >= s[i].count;
      }
      ConsKeepsDescending(x, s);
    } else {
      var rest := Insert(x, s[1..]);
      InsertKeepsDescending(x, s[1..]);
      forall e: ResultEntry | e in multiset(rest)
        ensures e.count <= s[0].count
      {
        if e != x {
          assert e in multiset(s[1..]);
          var i :| 0 <= i < |s[1..]| && s[1..][i] == e;
          assert s[i + 1] == e;
        }
      }
      ConsKeepsDescending(s[0], rest);
    }
  }

  lemma {:induction false} WithCountOfConcat(a: seq<ResultEntry>, b: seq<ResultEntry>, k: nat)
    ensures WithCount(a + b, k) == WithCount(a, k) + WithCount(b, k)
  {
    if a == [] {
      assert a + b == b;
    } else {
      assert (a + b)[0] == a[0] && (a + b)[1..] == a[1..] + b;
      WithCountOfConcat(a[1..], b, k);
    }
  }

  lemma DescendingTail(s: seq<ResultEntry>)
    requires Descending(s) && s != []
    ensures Descending(s[1..])
  {
    forall i, j | 0 <= i < j < |s[1..]|
      ensures s[1..][i].count >= s[1..][j].count
    {
      assert s[1..][i] == s[i + 1] && s[1..][j] == s[j + 1];
    }
  }

  /** The entries of a one-element list with count `k`. */
  lemma WithCountOfOne(x: ResultEntry, k: nat)
    ensures WithCount([x], k) == if x.count == k then [x] else []
  {
    assert [x][1..] == [];
  }

  /** `WithCount` of a list with a head in front. */
  lemma WithCountCons(h: ResultEntry, t: seq<ResultEntry>, k: nat)
    ensures WithCount([h] + t, k) == (if h.count == k then [h] else []) + WithCount(t, k)
  {
    assert ([h] + t)[0] == h && ([h] + t)[1..] == t;
  }

  /** Inserting `x` into a descending list adds it to the front of the entries
      with its count and leaves every other count's entries alone. */
  lemma {:induction false} InsertWithCount(x: ResultEntry, s: seq<ResultEntry>, k: nat)
    requires Descending(s)
    ensures WithCount(Insert(x, s), k) == WithCount([x], k) + WithCount(s, k)
  {
    if s == [] || s[0].count <= x.count {
      WithCountOfConcat([x], s, k);
    } else {
      DescendingTail(s);
      InsertWithCount(x, s[1..], k);
      assert Insert(x, s) == [s[0]] + Insert(x, s[1..]);
      assert [s[0]] + s[1..] == s;
      PassHead(s[0], x, Insert(x, s[1..]), s[1..], k);
    }
  }

  /** Moving `x` past a head `h` with a different count: at most one of the
      two has count `k`, so their relative order does not matter to
      `WithCount`. */
  lemma PassHead(h: ResultEntry, x: ResultEntry, rest: seq<ResultEntry>, t: seq<ResultEntry>, k: nat)
    requires h.count != x.count
    requires WithCount(rest, k) == WithCount([x], k) + WithCount(t, k)
    ensures WithCount([h] + rest, k) == WithCount([x], k) + WithCount([h] + t, k)
  {
    WithCountCons(h, rest, k);
    WithCountCons(h, t, k);
    WithCountOfOne(x, k);
    var tail := WithCount(t, k);
    if h.count == k {
      assert [h] + ([] + tail) == [] + ([h] + tail);
    } else if x.count == k {
      assert [] + ([x] + tail) == [x] + ([] + tail);
    } else {
      assert [] + ([] + tail) == [] + ([] + tail);
    }
  }

  /** One step of `SortDescending`: inserting the head into the sorted tail
      gives a descending permutation of the list that keeps every count's
      entries in input order. */
  lemma SortStep(x: ResultEntry, sorted: seq<ResultEntry>, tail: seq<ResultEntry>)
    requires Descending(sorted) && multiset(sorted) == multiset(tail)
    requires forall k: nat :: WithCount(sorted, k) == WithCount(tail, k)
    ensures Descending(Insert(x, sorted))
    ensures multiset(Insert(x, sorted)) == multiset([x] + tail)
    ensures forall k: nat :: WithCount(Insert(x, sorted), k) == WithCount([x] + tail, k)
  {
    InsertKeepsDescending(x, sorted);
    forall k: nat
      ensures WithCount(Insert(x, sorted), k) == WithCount([x] + tail, k)
    {
      InsertWithCount(x, sorted, k);
      WithCountOfConcat([x], tail, k);
    }
  }

  /** The intended order: greatest count first, a permutation of the input,
      and for every count the entries having it stay in input order. */
  function SortDescending(s: seq<ResultEntry>): (r: seq<ResultEntry>)
    ensures Descending(r)
    ensures multiset(r) == multiset(s)
    ensures forall k: nat :: WithCount(r, k) == WithCount(s, k)
  {
    if s == [] then []
    else
      var sorted := SortDescending(s[1..]);
      SortStep(s[0], sorted, s[1..]);
      assert [s[0]] + s[1..] == s;
      Insert(s[0], sorted)
  }

  /** `(a, b) => a.count < b.count`, with its boolean result coerced by ToNumber. */
  function BooleanComparator(a: ResultEntry, b: ResultEntry): (v: int)
    ensures v == 0 || v == 1
    ensures v == 1 <==> a.count < b.count
  {
    if a.count < b.count then 1 else 0
  }

  /** The comparator never says "a before b": for two entries with different
      counts it answers 1 one way and 0 the other, where a consistent
      comparator must answer with opposite signs. */
  lemma BooleanComparatorIsInconsistent(a: ResultEntry, b: ResultEntry)
    requires a.count < b.count
    ensures BooleanComparator(a, b) > 0 && BooleanComparator(b, a) == 0
    ensures forall x, y :: BooleanComparator(x, y) >= 0
  {
  }

  /** One insertion step of an engine that moves an element ahead of its
      predecessor only when the comparator answers negative (the rule of the
      run detection and binary insertion in V8's TimSort). */
  function InsertNegativeOnly(cmp: (ResultEntry, ResultEntry) -> int, s: seq<ResultEntry>, x: ResultEntry)
    : seq<ResultEntry>
    decreases |s|
  {
    if s == [] || cmp(x, s[|s| - 1]) >= 0 then s + [x]
    else InsertNegativeOnly(cmp, s[..|s| - 1], x) + [s[|s| - 1]]
  }

  /** An insertion sort driven by a comparator under that rule. */
  function SortByComparator(cmp: (ResultEntry, ResultEntry) -> int, s: seq<ResultEntry>): seq<ResultEntry>
    decreases |s|
  {
    if s == [] then [] else InsertNegativeOnly(cmp, SortByComparator(cmp, s[..|s| - 1]), s[|s| - 1])
  }

  /** The source's sort under such an engine. */
  function SortAsWritten(s: seq<ResultEntry>): seq<ResultEntry> {
    SortByComparator(BooleanComparator, s)
  }

  /** Under such an engine the source's sort leaves the results in the order
      the tests ran in, whatever their counts. */
  lemma {:induction false} SortAsWrittenKeepsOrder(s: seq<ResultEntry>)
    ensures SortAsWritten(s) == s
    decreases |s|
  {
    if s != [] {
      var init, last := s[..|s| - 1], s[|s| - 1];
      SortAsWrittenKeepsOrder(init);
      assert SortAsWritten(s) == InsertNegativeOnly(BooleanComparator, init, last);
      if init != [] {
        assert BooleanComparator(last, init[|init| - 1]) >= 0;
      }
      assert init + [last] == s;
    }
  }

  /** Two tests where the second ran more often: the as-written order keeps
      the slower test first, the intended order puts the faster one first. */
  lemma SortAsWrittenIsNotDescending()
    ensures var slow := ResultEntry("test1", 10, Percent(-50.0), 100.0);
            var fast := ResultEntry("test2", 20, Absent, 200.0);
            && SortAsWritten([slow, fast]) == [slow, fast]
            && !Descending(SortAsWritten([slow, fast]))
            && SortDescending([slow, fast]) == [fast, slow]
  {
    var slow := ResultEntry("test1", 10, Percent(-50.0), 100.0);
    var fast := ResultEntry("test2", 20, Absent, 200.0);
    SortAsWrittenKeepsOrder([slow, fast]);
    assert [slow, fast][1..] == [fast];
    assert SortDescending([fast]) == [fast];
  }
}

=== FILE: registry.dfy ===
/** The suite's test registry (`self.tests`, Suite.js `add`).

    A JavaScript object used as a name-to-body map: a map from property names
    to bodies, together with the order in which the names were first created,
    which is the order `for...in` and the series runner visit them. Assigning
    to an existing property replaces its value and keeps its place. The body
    type `B` is abstract, since the suite only stores bodies and hands them on.
 */
module Registry {

  datatype Tests<B> = Tests(order: seq<string>, bodies: map<string, B>)

  /** Property names are unique, and the order lists exactly the properties. */
  predicate Valid<B>(t: Tests<B>) {
    && (forall i, j :: 0 <= i < j < |t.order| ==> t.order[i] != t.order[j])
    && t.bodies.Keys == (set n | n in t.order)
  }

  /** `self.tests = {}` */
  function New<B>(): (t: Tests<B>)
    ensures Valid(t) && |t.order| == 0
  {
    Tests([], map[])
  }

  /** `self.tests[name] = fn`: the name now maps to the new body, whatever it
      mapped to before; every other name keeps its body (or stays absent); a
      new name is appended to the order and a known one keeps its place. */
  function Add<B>(t: Tests<B>, name: string, body: B): (r: Tests<B>)
    requires Valid(t)
    ensures Valid(r)
    ensures name in r.bodies && r.bodies[name] == body
    ensures forall n :: n != name ==> (n in r.bodies <==> n in t.bodies)
    ensures forall n :: n != name && n in t.bodies ==> r.bodies[n] == t.bodies[n]
    ensures name in t.bodies ==> r.order == t.order
    ensures name !in t.bodies ==> r.order == t.order + [name]
  {
    Tests(if name in t.bodies then t.order else t.order + [name], t.bodies[name := body])
  }

  /** A repeated registration under the same name keeps only the last body:
      the earlier one leaves no trace, not even in the order. */
  lemma AddOverwrites<B>(t: Tests<B>, name: string, first: B, second: B)
    requires Valid(t)
    ensures Add(Add(t, name, first), name, second) == Add(t, name, second)
  {
    var a := Add(Add(t, name, first), name, second);
    var b := Add(t, name, second);
    assert a.bodies == b.bodies;
  }

  /** Registrations under different names commute on the bodies; only the
      order records which came first. */
  lemma AddDifferentNamesCommute<B>(t: Tests<B>, n1: string, b1: B, n2: string, b2: B)
    requires Valid(t) && n1 != n2
    ensures Add(Add(t, n1, b1), n2, b2).bodies == Add(Add(t, n2, b2), n1, b1).bodies
    ensures n1 !in t.bodies && n2 !in t.bodies ==>
      Add(Add(t, n1, b1), n2, b2).order == t.order + [n1, n2]
  {
    var a := Add(Add(t, n1, b1), n2, b2);
    var b := Add(Add(t, n2, b2), n1, b1);
    assert a.bodies == b.bodies;
  }
}

=== FILE: results.dfy ===
/** The shapes `run` hands to its callback (Suite.js `run`). */
module Results {
  import opened JsValues

  /** One property of the object `async.mapValuesSeries` builds: a test's name
      and its iteration count. */
  datatype Measured = Measured(name: string, count: nat)

  /** The `diff` field: `undefined` for the winner, a percentage otherwise, and
      NaN when the winning count is 0 (`0 / 0`). */
  datatype Diff = Absent | Percent(p: real) | NotANumber

  /** One element of `results.results`. */
  datatype ResultEntry = ResultEntry(name: string, count: nat, diff: Diff, opsSec: real)

  /** `{ winner, winnerCount, results }` */
  datatype Ranking = Ranking(winner: Option<string>, winnerCount: nat, results: seq<ResultEntry>)

  predicate DistinctNames(temp: seq<Measured>) {
    forall i, j :: 0 <= i < j < |temp| ==> temp[i].name != temp[j].name
  }

  /** Greatest count first. */
  predicate Descending(s: seq<ResultEntry>) {
    forall i, j :: 0 <= i < j < |s| ==> s[i].count >= s[j].count
  }

  /** The entries of `s` with count `k`, in the order they appear. */
  function WithCount(s: seq<ResultEntry>, k: nat): seq<ResultEntry> {
    if s == [] then []
    else (if s[0].count == k then [s[0]] else []) + WithCount(s[1..], k)
  }
}

=== FILE: runner.dfy ===
/** The timed loop runner (Suite.js `_runTest`).

    The clock and the test body are abstracted into a trace: the reading taken
    when the loop starts, and for each invocation of the body, in order, the
    completion it signalled, namely the clock reading `runCb` takes and the
    error argument, if any, the body passed to its completion callback.
    Re-invoking the body is an iteration of a `while` loop: the source's
    direct path is a tail call through `runCb`, which grows the stack on
    engines without tail-call elimination, and the loop stands for its
    intended, stack-free behaviour. A bounce is recorded as a decision
    rather than performed. A trace that ends before the deadline is reached
    stands for a body that stops signalling completion: the real runner then
    never calls back.
 */
module Runner {
  import opened JsValues
  import opened Config

  datatype TestError = TestError(message: string)

  /** One call of the completion callback: the clock reading (in microseconds)
      `runCb` takes, and the error the body passed, if any. */
  datatype Completion = Completion(now: int, err: Option<TestError>)

  datatype Clock = Clock(start: int, completions: seq<Completion>)

  /** What the runner's callback receives: `cb(null, count)`, `cb(err)`, or
      nothing at all when the body stops signalling. */
  datatype Outcome = Completed(count: nat) | Failed(err: TestError) | Stalled(count: nat)

  /** How the next invocation is issued after a completion within budget. */
  datatype Continuation = Direct | Bounce

  /** The resolved duration as the comparison `now - start > duration` sees it. */
  function Duration(o: Options): (d: real)
    requires Resolved(o)
    ensures d != 0.0
    ensures o.duration.Num? ==> d == o.duration.n
  {
    ToNumber(o.duration).value
  }

  function BounceEvery(o: Options): (b: real)
    requires Resolved(o)
    ensures b != 0.0
    ensures o.bounceEvery.Num? ==> b == o.bounceEvery.n
  {
    ToNumber(o.bounceEvery).value
  }

  predicate PastDeadline(o: Options, start: int, now: int)
    requires Resolved(o)
  {
    (now - start) as real > Duration(o)
  }

  /** `bounce === true && count % bounceEvery === 0`, for the count just
      incremented. */
  predicate Bounces(o: Options, count: nat)
    requires Resolved(o)
  {
    o.bounce == Bool(true) && RemainderIsZero(count, BounceEvery(o))
  }

  /** A completion after which the loop goes on: no error and within budget. */
  predicate Continues(o: Options, start: int, c: Completion)
    requires Resolved(o)
  {
    c.err.None? && !PastDeadline(o, start, c.now)
  }

  predicate AllContinue(o: Options, clk: Clock, n: nat)
    requires Resolved(o) && n <= |clk.completions|
  {
    forall j :: 0 <= j < n ==> Continues(o, clk.start, clk.completions[j])
  }

  /** Reference definition: the outcome once the completions before index `k`
      have all continued (so the count stands at `k`). */
  function MeasureFrom(o: Options, clk: Clock, k: nat): Outcome
    requires Resolved(o) && k <= |clk.completions|
    decreases |clk.completions| - k
  {
    if k == |clk.completions| then Stalled(k)
    else
      var c := clk.completions[k];
      if c.err.Some? then Failed(c.err.value)
      else if PastDeadline(o, clk.start, c.now) then Completed(k)
      else MeasureFrom(o, clk, k + 1)
  }

  function Measure(o: Options, clk: Clock): Outcome
    requires Resolved(o)
  {
    MeasureFrom(o, clk, 0)
  }

  /** The outcome is fixed by the first completion that does not continue:
      its error if it carries one, otherwise the number of completions before
      it; with no such completion the run stalls after all of them. */
  lemma {:induction false} MeasureFromStopsAtFirstStop(o: Options, clk: Clock, k: nat)
    requires Resolved(o) && k <= |clk.completions| && AllContinue(o, clk, k)
    ensures match MeasureFrom(o, clk, k)
      case Completed(n) =>
        && n < |clk.completions| && AllContinue(o, clk, n)
        && clk.completions[n].err.None? && PastDeadline(o, clk.start, clk.completions[n].now)
      case Failed(e) =>
        exists n :: 0 <= n < |clk.completions| && AllContinue(o, clk, n) && clk.completions[n].err == Some(e)
      case Stalled(n) =>
        n == |clk.completions| && AllContinue(o, clk, n)
    decreases |clk.completions| - k
  {
    if k < |clk.completions| {
      var c := clk.completions[k];
      if c.err.Some? {
        assert AllContinue(o, clk, k) && clk.completions[k].err == Some(c.err.value);
      } else if !PastDeadline(o, clk.start, c.now) {
        MeasureFromStopsAtFirstStop(o, clk, k + 1);
      }
    }
  }

  lemma MeasureStopsAtFirstStop(o: Options, clk: Clock)
    requires Resolved(o)
    ensures match Measure(o, clk)
      case Completed(n) =>
        && n < |clk.completions| && AllContinue(o, clk, n)
        && clk.completions[n].err.None? && PastDeadline(o, clk.start, clk.completions[n].now)
      case Failed(e) =>
        exists n :: 0 <= n < |clk.completions| && AllContinue(o, clk, n) && clk.completions[n].err == Some(e)
      case Stalled(n) =>
        n == |clk.completions| && AllContinue(o, clk, n)
  {
    MeasureFromStopsAtFirstStop(o, clk, 0);
  }

  /** `_runTest`: invoke the body, and on each completion read the clock; past
      the deadline, report the count without invoking the body again;
      otherwise count the completion and re-invoke, either directly or through
      one scheduler round-trip. Also returns the continuation chosen after each
      counted completion. */
  method RunTest(o: Options, clk: Clock) returns (outcome: Outcome, steps: seq<Continuation>)
    requires Resolved(o)
    ensures outcome == Measure(o, clk)
    ensures |steps| <= |clk.completions| && AllContinue(o, clk, |steps|)
    ensures |steps| < |clk.completions| ==> !Continues(o, clk.start, clk.completions[|steps|])
    ensures outcome.Completed? || outcome.Stalled? ==> |steps| == outcome.count
    ensures forall k :: 0 <= k < |steps| ==> (steps[k] == Bounce <==> Bounces(o, k + 1))
    ensures o.bounce != Bool(true) ==> forall k :: 0 <= k < |steps| ==> steps[k] == Direct
  {
    var count: nat := 0;
    steps := [];
    while count < |clk.completions|
      invariant count <= |clk.completions|
      invariant |steps| == count
      invariant AllContinue(o, clk, count)
      invariant MeasureFrom(o, clk, count) == Measure(o, clk)
      invariant forall k :: 0 <= k < count ==> (steps[k] == Bounce <==> Bounces(o, k + 1))
      decreases |clk.completions| - count
    {
      var c := clk.completions[count];
      if c.err.Some? {
        return Failed(c.err.value), steps;
      }
      if PastDeadline(o, clk.start, c.now) {
        return Completed(count), steps;
      }
      count := count + 1;
      var next := if Bounces(o, count) then Bounce else Direct;
      steps := steps + [next];
    }
    outcome := Stalled(count);
  }

  /** With `bounce` on and the default period, the loop yields to the
      scheduler after exactly every thousandth completion; with `bounce` off
      (the default) it never does. */
  lemma BounceEveryThousandByDefault(count: nat)
    ensures Bounces(Resolve(Some(NoOptions.(bounce := Bool(true)))), count) <==> count % 1000 == 0
    ensures !Bounces(Resolve(None), count)
  {
    RemainderIsZeroAtDefaultPeriod(count);
  }

  /** With a clock that never runs backwards and a body that never reports an
      error, the count splits the trace exactly: every reading before it is
      within budget and every reading from it on is past the deadline. */
  lemma CountSplitsMonotoneTrace(o: Options, clk: Clock)
    requires Resolved(o)
    requires forall i, j :: 0 <= i <= j < |clk.completions| ==> clk.completions[i].now <= clk.completions[j].now
    requires forall i :: 0 <= i < |clk.completions| ==> clk.completions[i].err.None?
    ensures !Measure(o, clk).Failed?
    ensures Measure(o, clk).Completed? ==>
      forall k :: 0 <= k < |clk.completions| ==>
        (k < Measure(o, clk).count <==> !PastDeadline(o, clk.start, clk.completions[k].now))
  {
    MeasureStopsAtFirstStop(o, clk);
  }

  /** The loop as written: `runCb` takes no parameters, so an error the body
      passes to its completion callback is dropped and the completion counts
      like any other. */
  function MeasureAsWrittenFrom(o: Options, clk: Clock, k: nat): (r: Outcome)
    requires Resolved(o) && k <= |clk.completions|
    ensures !r.Failed?
    decreases |clk.completions| - k
  {
    if k == |clk.completions| then Stalled(k)
    else if PastDeadline(o, clk.start, clk.completions[k].now) then Completed(k)
    else MeasureAsWrittenFrom(o, clk, k + 1)
  }

  function MeasureAsWritten(o: Options, clk: Clock): (r: Outcome)
    requires Resolved(o)
    ensures !r.Failed?
  {
    MeasureAsWrittenFrom(o, clk, 0)
  }

  /** A body that reports an error within budget: the runner as written counts
      on and reports two completions, so the error check at Suite.js line 28
      is never reached; the corrected runner reports the error. */
  lemma ErrorSignalIsDropped()
    ensures var o := Resolve(None);
            var e := TestError("boom");
            var clk := Clock(0, [Completion(10, None), Completion(20, Some(e)), Completion(2000000, None)]);
            MeasureAsWritten(o, clk) == Completed(2) && Measure(o, clk) == Failed(e)
  {
    var o := Resolve(None);
    var e := TestError("boom");
    var clk := Clock(0, [Completion(10, None), Completion(20, Some(e)), Completion(2000000, None)]);
    assert MeasureAsWrittenFrom(o, clk, 2) == Completed(2);
    assert MeasureFrom(o, clk, 1) == Failed(e);
  }

  /** Without error arguments the two runners agree. */
  lemma {:induction false} AsWrittenAgreesWithoutErrors(o: Options, clk: Clock, k: nat)
    requires Resolved(o) && k <= |clk.completions|
    requires forall i :: 0 <= i < |clk.completions| ==> clk.completions[i].err.None?
    ensures MeasureAsWrittenFrom(o, clk, k) == MeasureFrom(o, clk, k)
    decreases |clk.completions| - k
  {
    if k < |clk.completions| && !PastDeadline(o, clk.start, clk.completions[k].now) {
      AsWrittenAgreesWithoutErrors(o, clk, k + 1);
    }
  }

  /** The trace as the as-written `runCb` sees it: the same clock readings,
      with every error argument dropped. */
  function Strip(cs: seq<Completion>): (r: seq<Completion>)
    ensures |r| == |cs|
    ensures forall i :: 0 <= i < |cs| ==> r[i].now == cs[i].now && r[i].err.None?
  {
    seq(|cs|, i requires 0 <= i < |cs| => Completion(cs[i].now, None))
  }

  /** For every trace, the as-written loop returns what the corrected loop
      returns on the same readings with the errors dropped: a completion that
      carries an error counts like any other. */
  lemma {:induction false} AsWrittenIsMeasureOfStripped(o: Options, clk: Clock, k: nat)
    requires Resolved(o) && k <= |clk.completions|
    ensures MeasureAsWrittenFrom(o, clk, k) == MeasureFrom(o, Clock(clk.start, Strip(clk.completions)), k)
    decreases |clk.completions| - k
  {
    if k < |clk.completions| && !PastDeadline(o, clk.start, clk.completions[k].now) {
      AsWrittenIsMeasureOfStripped(o, clk, k + 1);
    }
  }
}

=== FILE: statistics.dfy ===
/** Winner, diffs and throughput (Suite.js `run`, the completion callback of
    the series): computed from the name-to-count object, in iteration order,
    regardless of the `compare` option, which the suite never reads. */
module Statistics {
  import opened JsValues
  import opened Results
  import opened Ordering

  /** `results.winner` and `results.winnerCount` while the first loop runs. */
  datatype Lead = Lead(winner: Option<string>, winnerCount: nat)

  const NoLead := Lead(None, 0)

  /** The first `for...in` loop, from the `k`-th property on: a strictly
      greater count takes the lead, a tie does not. */
  function ScanWinner(temp: seq<Measured>, k: nat, lead: Lead): Lead
    requires k <= |temp|
    decreases |temp| - k
  {
    if k == |temp| then lead
    else if temp[k].count > lead.winnerCount then ScanWinner(temp, k + 1, Lead(Some(temp[k].name), temp[k].count))
    else ScanWinner(temp, k + 1, lead)
  }

  /** `i` holds the greatest count, and every earlier property a smaller one. */
  predicate IsFirstMaximum(temp: seq<Measured>, i: int) {
    && 0 <= i < |temp|
    && (forall j :: 0 <= j < |temp| ==> temp[j].count <= temp[i].count)
    && (forall j :: 0 <= j < i ==> temp[j].count < temp[i].count)
  }

  /** What the lead says about the first `k` properties. */
  predicate LeadsPrefix(temp: seq<Measured>, k: nat, lead: Lead)
    requires k <= |temp|
  {
    && (forall j :: 0 <= j < k ==> temp[j].count <= lead.winnerCount)
    && (lead.winner.None? ==> lead.winnerCount == 0)
    && (lead.winner.Some? ==>
          && lead.winnerCount > 0
          && exists i :: 0 <= i < k && temp[i].name == lead.winner.value && temp[i].count == lead.winnerCount
                         && forall j :: 0 <= j < i ==> temp[j].count < lead.winnerCount)
  }

  lemma {:induction false} ScanWinnerLeads(temp: seq<Measured>, k: nat, lead: Lead)
    requires k <= |temp| && LeadsPrefix(temp, k, lead)
    ensures LeadsPrefix(temp, |temp|, ScanWinner(temp, k, lead))
    decreases |temp| - k
  {
    if k < |temp| {
      if temp[k].count > lead.winnerCount {
        var next := Lead(Some(temp[k].name), temp[k].count);
        assert forall j :: 0 <= j < k ==> temp[j].count < next.winnerCount;
        ScanWinnerLeads(temp, k + 1, next);
      } else {
        if lead.winner.Some? {
          var i :| 0 <= i < k && temp[i].name == lead.winner.value && temp[i].count == lead.winnerCount
                   && forall j :: 0 <= j < i ==> temp[j].count < lead.winnerCount;
          assert 0 <= i < k + 1;
        }
        ScanWinnerLeads(temp, k + 1, lead);
      }
    }
  }

  /** `winnerCount` is the greatest count, or 0 with no tests; `winner` is
      undefined exactly when no count is positive, and otherwise names the
      first property, in iteration order, holding the greatest count. */
  function PickWinner(temp: seq<Measured>): (lead: Lead)
    ensures forall j :: 0 <= j < |temp| ==> temp[j].count <= lead.winnerCount
    ensures lead.winner.None? <==> forall j :: 0 <= j < |temp| ==> temp[j].count == 0
    ensures lead.winner.None? ==> lead.winnerCount == 0
    ensures lead.winner.Some? ==>
      exists i :: IsFirstMaximum(temp, i) && temp[i].name == lead.winner.value && temp[i].count == lead.winnerCount
  {
    ScanWinnerLeads(temp, 0, NoLead);
    var lead := ScanWinner(temp, 0, NoLead);
    if lead.winner.Some? then
      var i :| 0 <= i < |temp| && temp[i].name == lead.winner.value && temp[i].count == lead.winnerCount
               && forall j :: 0 <= j < i ==> temp[j].count < lead.winnerCount;
      assert IsFirstMaximum(temp, i);
      lead
    else
      lead
  }

  /** Tests with equal counts: the earliest of them wins. */
  lemma TieGoesToEarliest()
    ensures PickWinner([Measured("a", 5), Measured("b", 7), Measured("c", 7)]) == Lead(Some("b"), 7)
    ensures PickWinner([Measured("a", 0), Measured("b", 0)]) == NoLead
  {
  }

  /** `i === winner ? undefined : (val - winnerCount) / winnerCount * 100`.
      Every count is bounded by the winning count, so a winning count of 0
      means `0 / 0`. */
  function DiffOf(m: Measured, lead: Lead): (d: Diff)
    requires m.count <= lead.winnerCount
    ensures d.Absent? <==> lead.winner == Some(m.name)
    ensures !d.Absent? && lead.winnerCount == 0 ==> d.NotANumber?
    ensures !d.Absent? && lead.winnerCount > 0 ==> d.Percent? && -100.0 <= d.p <= 0.0
    ensures d.Percent? ==> d.p * lead.winnerCount as real == (m.count as real - lead.winnerCount as real) * 100.0
  {
    if lead.winner == Some(m.name) then Absent
    else if lead.winnerCount == 0 then NotANumber
    else Percent((m.count - lead.winnerCount) as real / lead.winnerCount as real * 100.0)
  }

  /** `val / (duration / 1000 / 1000)`: the count scaled to one second. */
  function OpsPerSecond(count: nat, duration: real): (ops: real)
    requires duration != 0.0
    ensures ops * duration == count as real * 1000000.0
    ensures duration > 0.0 ==> ops >= 0.0
  {
    count as real / (duration / 1000.0 / 1000.0)
  }

  /** The second `for...in` loop: one entry per property, in iteration order. */
  function Entries(temp: seq<Measured>, lead: Lead, duration: real): seq<ResultEntry>
    requires duration != 0.0
    requires forall j :: 0 <= j < |temp| ==> temp[j].count <= lead.winnerCount
  {
    seq(|temp|, i requires 0 <= i < |temp| =>
      ResultEntry(temp[i].name, temp[i].count, DiffOf(temp[i], lead), OpsPerSecond(temp[i].count, duration)))
  }

  /** The whole callback, with the intended descending sort. */
  function Rank(temp: seq<Measured>, duration: real): (r: Ranking)
    requires duration != 0.0
    ensures |r.results| == |temp|
    ensures Descending(r.results)
  {
    var lead := PickWinner(temp);
    var es := Entries(temp, lead, duration);
    var sorted := SortDescending(es);
    assert |sorted| == |multiset(sorted)| == |multiset(es)| == |es|;
    Ranking(lead.winner, lead.winnerCount, sorted)
  }

  /** Each result entry is the second loop's entry for some property. */
  lemma EntryOfRank(temp: seq<Measured>, duration: real, e: ResultEntry) returns (i: nat)
    requires duration != 0.0 && e in Rank(temp, duration).results
    ensures i < |temp| && e.name == temp[i].name && e.count == temp[i].count
    ensures e.diff == DiffOf(temp[i], PickWinner(temp))
    ensures e.opsSec == OpsPerSecond(temp[i].count, duration)
  {
    var es := Entries(temp, PickWinner(temp), duration);
    assert e in multiset(Rank(temp, duration).results);
    assert e in multiset(es);
    var k :| 0 <= k < |es| && es[k] == e;
    i := k;
  }

  /** Every result entry carries some test's name and count unchanged. */
  lemma RankEntriesAreTests(temp: seq<Measured>, duration: real)
    requires duration != 0.0
    ensures forall e :: e in Rank(temp, duration).results ==>
      exists i :: 0 <= i < |temp| && e.name == temp[i].name && e.count == temp[i].count
  {
    forall e | e in Rank(temp, duration).results
      ensures exists i :: 0 <= i < |temp| && e.name == temp[i].name && e.count == temp[i].count
    {
      var i := EntryOfRank(temp, duration, e);
      assert 0 <= i < |temp| && e.name == temp[i].name && e.count == temp[i].count;
    }
  }

  /** Every test has its entry among the results, with its name and count. */
  lemma RankHasEveryTest(temp: seq<Measured>, duration: real)
    requires duration != 0.0
    ensures var r := Rank(temp, duration);
      forall i :: 0 <= i < |temp| ==> exists e :: e in r.results && e.name == temp[i].name && e.count == temp[i].count
  {
    var r := Rank(temp, duration);
    forall i | 0 <= i < |temp|
      ensures exists e :: e in r.results && e.name == temp[i].name && e.count == temp[i].count
    {
      var e := RankEntryOf(temp, duration, i);
      assert e in r.results && e.name == temp[i].name && e.count == temp[i].count;
    }
  }

  /** Each property has its entry among the results. */
  lemma RankEntryOf(temp: seq<Measured>, duration: real, i: nat) returns (e: ResultEntry)
    requires duration != 0.0 && i < |temp|
    ensures e in Rank(temp, duration).results && e.name == temp[i].name && e.count == temp[i].count
    ensures e.diff == DiffOf(temp[i], PickWinner(temp))
  {
    var es := Entries(temp, PickWinner(temp), duration);
    e := es[i];
    assert e in multiset(es);
    assert e in multiset(Rank(temp, duration).results);
  }

  /** Tests with equal counts keep the order they ran in: for every count,
      the entries having it appear as in the second loop. */
  lemma RankKeepsTieOrder(temp: seq<Measured>, duration: real)
    requires duration != 0.0
    ensures forall k: nat :: WithCount(Rank(temp, duration).results, k) == WithCount(Entries(temp, PickWinner(temp), duration), k)
  {
  }

  /** `diff` is undefined exactly on the winner's entry, which is present
      whenever there is a winner; every entry's diff is computed against the
      winning count (`DiffOf`: a percentage in [-100, 0] when that count is
      positive); with no positive count every diff is NaN. */
  lemma RankDiffs(temp: seq<Measured>, duration: real)
    requires duration != 0.0
    ensures var r := Rank(temp, duration);
      && (forall e :: e in r.results ==> (e.diff.Absent? <==> r.winner == Some(e.name)))
      && (forall e :: e in r.results ==>
            && e.count <= r.winnerCount
            && e.diff == DiffOf(Measured(e.name, e.count), Lead(r.winner, r.winnerCount)))
      && (r.winnerCount == 0 ==> forall e :: e in r.results ==> e.diff == NotANumber)
      && (r.winner.Some? ==> exists e :: e in r.results && e.name == r.winner.value && e.diff == Absent
                                       && e.count == r.winnerCount)
  {
    var r := Rank(temp, duration);
    var lead := PickWinner(temp);
    var es := Entries(temp, lead, duration);
    forall e | e in r.results
      ensures e.count <= r.winnerCount
      ensures e.diff == DiffOf(Measured(e.name, e.count), Lead(r.winner, r.winnerCount))
    {
      var i := EntryOfRank(temp, duration, e);
      assert Measured(e.name, e.count) == temp[i];
    }
    if r.winner.Some? {
      var i :| IsFirstMaximum(temp, i) && temp[i].name == lead.winner.value && temp[i].count == lead.winnerCount;
      assert es[i] in multiset(es);
      assert es[i] in multiset(r.results);
    }
  }

  /** Every entry's `opsSec` is its count scaled to one second, so that
      `opsSec * duration == count * 1e6` (`OpsPerSecond`). */
  lemma RankOpsPerSecond(temp: seq<Measured>, duration: real)
    requires duration != 0.0
    ensures forall e :: e in Rank(temp, duration).results ==> e.opsSec == OpsPerSecond(e.count, duration)
  {
    forall e | e in Rank(temp, duration).results
      ensures e.opsSec == OpsPerSecond(e.count, duration)
    {
      var _ := EntryOfRank(temp, duration, e);
    }
  }

  /** The first loop as a reference: the winning count is the greatest count
      (0 when there is none). */
  function MaxCount(temp: seq<Measured>): nat {
    if temp == [] then 0
    else var rest := MaxCount(temp[1..]); if temp[0].count > rest then temp[0].count else rest
  }

  lemma {:induction false} WinnerCountIsMaxCount(temp: seq<Measured>)
    ensures PickWinner(temp).winnerCount == MaxCount(temp)
  {
    MaxCountBounds(temp);
    var lead := PickWinner(temp);
    if MaxCount(temp) > 0 {
      var i :| 0 <= i < |temp| && temp[i].count == MaxCount(temp);
      assert temp[i].count <= lead.winnerCount;
    }
    if lead.winner.Some? {
      var i :| IsFirstMaximum(temp, i) && temp[i].count == lead.winnerCount;
      assert temp[i].count <= MaxCount(temp);
    }
  }

  lemma {:induction false} MaxCountBounds(temp: seq<Measured>)
    ensures forall j :: 0 <= j < |temp| ==> temp[j].count <= MaxCount(temp)
    ensures MaxCount(temp) > 0 ==> exists i :: 0 <= i < |temp| && temp[i].count == MaxCount(temp)
  {
    if temp != [] {
      MaxCountBounds(temp[1..]);
      forall j | 0 <= j < |temp|
        ensures temp[j].count <= MaxCount(temp)
      {
        if j > 0 { assert temp[j] == temp[1..][j - 1]; }
      }
      if MaxCount(temp) > 0 && MaxCount(temp) != temp[0].count {
        var i :| 0 <= i < |temp[1..]| && temp[1..][i].count == MaxCount(temp[1..]);
        assert temp[i + 1].count == MaxCount(temp);
      }
    }
  }
}

=== FILE: suite.dfy ===
/** The suite as a whole (Suite.js): construction, registration, and `run`,
    which feeds every registered test, one after another, through the timed
    loop and ranks the counts once all of them have finished.

    What running a test's body produces is given as that test's clock trace;
    the 100 ms pause between tests only moves the clock and is not modelled.
 */
module Harness {
  import opened JsValues
  import opened Config
  import Registry
  import opened Runner
  import opened Results
  import opened Statistics
  import opened Ordering

  datatype Suite<B> = Suite(args: Options, tests: Registry.Tests<B>)

  predicate Valid<B>(s: Suite<B>) {
    Resolved(s.args) && Registry.Valid(s.tests)
  }

  /** `new Suite(args)` */
  function New<B>(args: Option<Options>): (s: Suite<B>)
    ensures Valid(s) && s.args == Resolve(args) && |s.tests.order| == 0
  {
    Suite(Resolve(args), Registry.New())
  }

  /** `suite.add(name, fn)`: the options are untouched, `name` now runs `body`,
      and every other name keeps its body. */
  function Add<B>(s: Suite<B>, name: string, body: B): (r: Suite<B>)
    requires Valid(s)
    ensures Valid(r) && r.args == s.args
    ensures r.tests == Registry.Add(s.tests, name, body)
    ensures r.tests.bodies == s.tests.bodies[name := body]
  {
    Suite(s.args, Registry.Add(s.tests, name, body))
  }

  /** What `async.mapValuesSeries` hands its final callback, if it calls it. */
  datatype Series = Finished(temp: seq<Measured>) | Stopped(err: TestError) | Hung

  /** What `run` hands its callback: the ranking, the first error, or nothing
      ever, when a test's body stops signalling completion. */
  datatype RunResult = Ranked(ranking: Ranking) | Aborted(err: TestError) | NoCallback

  /** The index of the first test that did not complete, or the number of
      tests when all did. */
  function FirstUnfinished(outcomes: seq<Outcome>): (k: nat)
    ensures k <= |outcomes|
    ensures forall j :: 0 <= j < k ==> outcomes[j].Completed?
    ensures k < |outcomes| ==> !outcomes[k].Completed?
  {
    if outcomes == [] || !outcomes[0].Completed? then 0
    else 1 + FirstUnfinished(outcomes[1..])
  }

  /** `async.mapValuesSeries` over the tests: each test starts only after the
      previous one finished; the first error ends the series with that error
      and no results; a test that never finishes leaves the series hanging. */
  function RunSeries(names: seq<string>, outcomes: seq<Outcome>): (r: Series)
    requires |names| == |outcomes|
    ensures var k := FirstUnfinished(outcomes);
      && (k == |outcomes| ==>
            && r.Finished? && |r.temp| == |names|
            && forall i :: 0 <= i < |names| ==> r.temp[i] == Measured(names[i], outcomes[i].count))
      && (k < |outcomes| && outcomes[k].Failed? ==> r == Stopped(outcomes[k].err))
      && (k < |outcomes| && outcomes[k].Stalled? ==> r == Hung)
  {
    if names == [] then Finished([])
    else match outcomes[0]
      case Failed(e) => Stopped(e)
      case Stalled(_) => Hung
      case Completed(n) =>
        match RunSeries(names[1..], outcomes[1..])
        case Finished(t) => Finished([Measured(names[0], n)] + t)
        case other => other
  }

  /** The series only depends on the tests that were started: outcomes after
      the first unfinished test, whatever they are, change nothing. */
  lemma SeriesIgnoresLaterTests(names: seq<string>, o1: seq<Outcome>, o2: seq<Outcome>)
    requires |names| == |o1| == |o2|
    requires FirstUnfinished(o1) < |o1|
    requires o1[..FirstUnfinished(o1) + 1] == o2[..FirstUnfinished(o1) + 1]
    ensures RunSeries(names, o1) == RunSeries(names, o2)
  {
    var k := FirstUnfinished(o1);
    assert forall j :: 0 <= j <= k ==> o1[j] == o1[..k + 1][j] == o2[..k + 1][j] == o2[j];
    SameFirstUnfinished(o1, o2, k);
  }

  lemma SameFirstUnfinished(o1: seq<Outcome>, o2: seq<Outcome>, k: nat)
    requires k < |o1| && k < |o2| && k == FirstUnfinished(o1)
    requires forall j :: 0 <= j <= k ==> o1[j] == o2[j]
    ensures FirstUnfinished(o2) == k
  {
  }

  /** The outcome of each registered test, each run against its own trace. */
  function Outcomes<B>(s: Suite<B>, clocks: seq<Clock>): (os: seq<Outcome>)
    requires Valid(s) && |clocks| == |s.tests.order|
    ensures |os| == |clocks|
    ensures forall i :: 0 <= i < |clocks| ==> os[i] == Measure(s.args, clocks[i])
  {
    seq(|clocks|, i requires 0 <= i < |clocks| => Measure(s.args, clocks[i]))
  }

  /** `suite.run(cb)`: the i-th registered test runs against `clocks[i]`. */
  function Run<B>(s: Suite<B>, clocks: seq<Clock>): (r: RunResult)
    requires Valid(s) && |clocks| == |s.tests.order|
    ensures r.Ranked? <==> forall i :: 0 <= i < |clocks| ==> Measure(s.args, clocks[i]).Completed?
    ensures r.Ranked? ==> |r.ranking.results| == |clocks| && Descending(r.ranking.results)
  {
    var outcomes := Outcomes(s, clocks);
    match RunSeries(s.tests.order, outcomes)
    case Finished(temp) => Ranked(Rank(temp, Duration(s.args)))
    case Stopped(e) => Aborted(e)
    case Hung => NoCallback
  }

  /** The name-to-count object ranked when every test completed. */
  function Counts<B>(s: Suite<B>, clocks: seq<Clock>): (temp: seq<Measured>)
    requires Valid(s) && |clocks| == |s.tests.order|
    requires forall i :: 0 <= i < |clocks| ==> Measure(s.args, clocks[i]).Completed?
    ensures |temp| == |clocks|
    ensures forall i :: 0 <= i < |clocks| ==>
      temp[i] == Measured(s.tests.order[i], Measure(s.args, clocks[i]).count)
  {
    seq(|clocks|, i requires 0 <= i < |clocks| => Measured(s.tests.order[i], Measure(s.args, clocks[i]).count))
  }

  /** A run that completes ranks exactly the registered tests with their
      measured counts, in the order they were registered. */
  lemma RunRanksMeasuredCounts<B>(s: Suite<B>, clocks: seq<Clock>)
    requires Valid(s) && |clocks| == |s.tests.order|
    requires forall i :: 0 <= i < |clocks| ==> Measure(s.args, clocks[i]).Completed?
    ensures Run(s, clocks) == Ranked(Rank(Counts(s, clocks), Duration(s.args)))
    ensures DistinctNames(Counts(s, clocks))
  {
    var outcomes := Outcomes(s, clocks);
    var series := RunSeries(s.tests.order, outcomes);
    assert series.Finished? && series.temp == Counts(s, clocks);
  }

  /** `run` aborts with the error of the first test that reports one, provided
      every test before it completed; no later test starts, so their traces
      do not matter. */
  lemma RunAbortsOnFirstError<B>(s: Suite<B>, clocks: seq<Clock>, k: nat)
    requires Valid(s) && |clocks| == |s.tests.order|
    requires k < |clocks| && Measure(s.args, clocks[k]).Failed?
    requires forall j :: 0 <= j < k ==> Measure(s.args, clocks[j]).Completed?
    ensures Run(s, clocks) == Aborted(Measure(s.args, clocks[k]).err)
    ensures forall later: seq<Clock> :: |later| == |clocks| - k - 1 ==>
      Run(s, clocks[..k + 1] + later) == Run(s, clocks)
  {
    var outcomes := Outcomes(s, clocks);
    assert FirstUnfinished(outcomes) == k;
    forall later: seq<Clock> | |later| == |clocks| - k - 1
      ensures Run(s, clocks[..k + 1] + later) == Run(s, clocks)
    {
      var other := clocks[..k + 1] + later;
      var o2 := Outcomes(s, other);
      assert forall j :: 0 <= j <= k ==> other[j] == clocks[j];
      assert outcomes[..k + 1] == o2[..k + 1];
      SeriesIgnoresLaterTests(s.tests.order, outcomes, o2);
    }
  }

  /** The options of the scenario below: a budget of 100 microseconds. */
  const ScenarioArgs := Options(Num(100.0), Undefined, Undefined, Bool(true))

  /** Two tests under a budget of 100 microseconds, run end to end: the second
      test completes twice as often, wins, comes first, and the first test's
      diff is -50 percent. */
  lemma TwoTestsRankFasterFirst()
    ensures var s := Add(Add(New<int>(Some(ScenarioArgs)), "test1", 1), "test2", 2);
            Run(s, [SlowClock, FastClock]) == Ranked(Ranking(Some("test2"), 4, [
              ResultEntry("test2", 4, Absent, 40000.0),
              ResultEntry("test1", 2, Percent(-50.0), 20000.0)]))
  {
    var s := Add(Add(New<int>(Some(ScenarioArgs)), "test1", 1), "test2", 2);
    ScenarioSuite(s);
    ScenarioCounts(s.args);
    RunRanksMeasuredCounts(s, [SlowClock, FastClock]);
    ScenarioTemp(s);
    ScenarioRanking();
  }

  lemma ScenarioSuite(s: Suite<int>)
    requires s == Add(Add(New<int>(Some(ScenarioArgs)), "test1", 1), "test2", 2)
    ensures s.args == Resolve(Some(ScenarioArgs)) && Duration(s.args) == 100.0
    ensures s.tests.order == ["test1", "test2"]
  {
  }

  lemma ScenarioTemp(s: Suite<int>)
    requires Valid(s) && s.args == Resolve(Some(ScenarioArgs)) && s.tests.order == ["test1", "test2"]
    requires Measure(s.args, SlowClock) == Completed(2) && Measure(s.args, FastClock) == Completed(4)
    ensures Counts(s, [SlowClock, FastClock]) == [Measured("test1", 2), Measured("test2", 4)]
  {
    var temp := Counts(s, [SlowClock, FastClock]);
    assert temp[0] == Measured("test1", 2) && temp[1] == Measured("test2", 4);
  }

  const SlowClock := Clock(0, [Completion(40, None), Completion(80, None), Completion(120, None)])
  const FastClock := Clock(0, [Completion(25, None), Completion(50, None), Completion(75, None),
                               Completion(100, None), Completion(125, None)])

  lemma ScenarioCounts(o: Options)
    requires o == Resolve(Some(ScenarioArgs))
    ensures Measure(o, SlowClock) == Completed(2) && Measure(o, FastClock) == Completed(4)
  {
    assert Duration(o) == 100.0;
    assert MeasureFrom(o, SlowClock, 2) == Completed(2);
    assert MeasureFrom(o, FastClock, 4) == Completed(4);
  }

  lemma ScenarioRanking()
    ensures Rank([Measured("test1", 2), Measured("test2", 4)], 100.0) == Ranking(Some("test2"), 4, [
              ResultEntry("test2", 4, Absent, 40000.0),
              ResultEntry("test1", 2, Percent(-50.0), 20000.0)])
  {
    var temp := [Measured("test1", 2), Measured("test2", 4)];
    assert PickWinner(temp) == Lead(Some("test2"), 4);
    var es := Entries(temp, Lead(Some("test2"), 4), 100.0);
    assert es[0] == ResultEntry("test1", 2, Percent(-50.0), 20000.0);
    assert es[1] == ResultEntry("test2", 4, Absent, 40000.0);
    assert SortDescending(es) == [es[1], es[0]] by {
      assert es[1..] == [es[1]];
      assert SortDescending([es[1]]) == [es[1]];
      assert [es[1]][1..] == [];
      assert Insert(es[0], [es[1]]) == [es[1], es[0]];
    }
  }
}
